=== FILE: README.md ===
# Lifetimer countdown lifecycle, modelled in Dafny

Lifetimer is a macOS menu-bar app. The user enters a number of years. The app
computes an absolute target date, persists it, and shows the remaining seconds
once a second. This project models the countdown view model (`TimerViewModel`)
and the single-slot store it persists into (`PersistenceService`). Both are
modelled as pure transitions over an immutable state, with proofs about them.

- `time.dfy` (`Time`): dates are whole seconds on one shared time line.
- `persistence.dfy` (`Persistence`): the user's defaults database is a map from
  keys to stored objects. `Save`, `LoadTargetDate` and `ClearTargetDate` all
  address the one key `"CountdownTargetDate"`. Loading does the `as? Date`
  downcast, so a non-date under the key reads as absent. `LoadTargetDate`
  is a function of the database and returns no new database, so loading is
  read-only by construction.
- `year_split.dfy` (`YearSplit`): splits a duration in years into whole years
  plus the fraction as whole seconds, using a 365.25-day year. Both conversions
  truncate toward zero. A negative duration gives a target at or before now
  when the calendar never moves a date forward for a zero or negative count;
  minus half a year gives -15,778,800 seconds. The
  two calendar steps ("add N years", "add N seconds") are abstract functions
  that return an `Option`.
- `decimal.dfy` (`Decimal`): turns the remaining seconds into display text.
  Reading the text back gives the number of seconds again.
- `timer_view_model.dfy` (`TimerViewModel`): the state is the in-memory target,
  the persisted defaults, `isTimerRunning`, what the `timer` handle refers to,
  the number of orphaned timers that still fire, and a log of callback events
  (`Update(text)`, `Finished`). The operations are `Init`, `StartTimer`,
  `ResetTimer`, `SetupTimer`, `InvalidateTimer` and `Tick` (`updateCountdown`).
  "Now" is passed in as a parameter.
- `lifecycle.dfy` (`Lifecycle`): the invariant that every reachable state
  keeps, runs of user actions and timer firings, and scenario lemmas. `Step`
  and `Run` are direct calls on the view model: start and reset are accepted
  in any state. `UIStep` and `UIRun` go through the app's popover, which
  offers Start only while not running and Reset only while running.

Behaviour of the code that the model keeps and proves:

- Finishing does not clear the target or the slot. Every later launch
  starts running again toward a target already in the past, and its first
  tick finishes again. So "the slot holds a date if and only if the countdown
  is running" does not hold. Only the direction "running implies the slot
  holds a date" holds.
- `setupTimer` replaces the handle without invalidating the timer it referred
  to. After two direct starts, two timers fire every second, and a reset stops
  only one of them. Through the app's buttons a start happens only while no
  timer is scheduled, so at most one timer is ever live.
- If the second calendar step fails during a direct start on a running
  countdown, the in-memory target becomes nil. The running flag and the timer
  stay as they were, and the next tick stops the timer without clearing the
  flag. Through the app's buttons this cannot happen: every state reached
  from a launch has a target whenever it is running.
- `init` emits nothing. With a stored date it arms a timer, and the first
  update comes from the first timer firing.
- A negative duration is passed through to `startTimer`. Minus half a year
  truncates to 0 whole years and -15,778,800 seconds. With a calendar that
  adds nothing for a zero count and moves backwards for a negative count, the
  target is in the past and the first tick finishes. A duration strictly between -1/31,557,600 of a
  year and zero truncates to 0 years and 0 seconds.

## Model

| member | source | states |
|---|---|---|
| Persistence.Save | Lifetimer/PersistenceService.swift:8-10 | after a save the key holds exactly the given date; every other key is untouched |
| Persistence.LoadTargetDate | Lifetimer/PersistenceService.swift:13-15 | the load returns a date exactly when the key holds a date object, and then it returns that date |
| Persistence.ClearTargetDate | Lifetimer/PersistenceService.swift:18-20 | after a clear the key is absent; every other key is untouched |
| Persistence.LoadAfterSave | Lifetimer/PersistenceService.swift:8-15 | a load after `save(d)` returns `d` |
| Persistence.SaveOverwrites | Lifetimer/PersistenceService.swift:8-10 | a second save fully replaces the first |
| Persistence.LoadAfterClear | Lifetimer/PersistenceService.swift:13-20 | a load after a clear returns absent |
| Persistence.ClearIdempotent | Lifetimer/PersistenceService.swift:18-20 | clearing twice equals clearing once |
| Persistence.ClearAbsentIsHarmless | Lifetimer/PersistenceService.swift:18-20 | clearing a database without the key changes nothing |
| Persistence.LoadReadsOnlyTheKey | Lifetimer/PersistenceService.swift:5-15 | the load depends only on the entry under `"CountdownTargetDate"` |
| Decimal.Format | Lifetimer/TimerViewModel.swift:86-88 | the text is a non-empty string of decimal digits, with no leading zero for a positive count |
| Decimal.ValueOfFormat | Lifetimer/TimerViewModel.swift:86-88 | reading the formatted text back yields the original number of seconds |
| Decimal.FormatInjective | Lifetimer/TimerViewModel.swift:86-88 | different second counts never render to the same text |
| YearSplit.Truncate | Lifetimer/TimerViewModel.swift:24 | `Int(x)` is the whole number nearest `x` on the side of zero, with the sign of `x` |
| YearSplit.WholeYears | Lifetimer/TimerViewModel.swift:24 | the whole-year count is `years` truncated toward zero, so it has the sign of `years` and differs from it by less than one |
| YearSplit.FractionalSeconds | Lifetimer/TimerViewModel.swift:26 | the added seconds are the fraction-of-year times 365.25 days truncated toward zero, with the sign of `years`, strictly between -31557600 and 31557600 |
| YearSplit.WholeYearsAddNoSeconds | Lifetimer/TimerViewModel.swift:24-27 | a whole number of years, of either sign, is that many years and zero fractional seconds |
| YearSplit.HalfYear | Lifetimer/TimerViewModel.swift:24-26 | half a year is 0 whole years plus 15,778,800 seconds |
| YearSplit.NegativeHalfYear | Lifetimer/TimerViewModel.swift:24-26 | minus half a year is 0 whole years and 15,778,800 seconds backwards |
| YearSplit.NegativeDurationNotAhead | Lifetimer/TimerViewModel.swift:24-27 | for a negative duration and a calendar that never moves forward for a zero or negative count, the target is at or before now |
| YearSplit.TargetDate | Lifetimer/TimerViewModel.swift:22-27 | the target is "add seconds" applied to "add years" applied to now, and absent when either calendar step fails |
| TimerViewModel.SetupTimer | Lifetimer/TimerViewModel.swift:59-63 | one more live timer; the handle refers to the new one and nothing else changes |
| TimerViewModel.InvalidateTimer | Lifetimer/TimerViewModel.swift:68 | the handle's timer stops firing, orphans keep firing, and a nil handle stays nil |
| TimerViewModel.LoadTargetDateStep | Lifetimer/TimerViewModel.swift:50-56 | with a stored date: target equals the slot, running, one more timer; with none: no change; never emits |
| TimerViewModel.Init | Lifetimer/TimerViewModel.swift:16-19 | with a stored date it runs toward it with exactly one timer; with an empty slot it is idle; either way nothing is emitted |
| TimerViewModel.StartTimer | Lifetimer/TimerViewModel.swift:22-35 | year-step failure changes nothing; second-step failure only nils the in-memory target; success puts the same target in memory and in the slot, runs and arms one more timer; never emits |
| TimerViewModel.ResetTimer | Lifetimer/TimerViewModel.swift:38-47 | no handle, no target, empty slot, not running, only orphans still live, and exactly one `Update("")` emitted |
| TimerViewModel.Tick | Lifetimer/TimerViewModel.swift:66-83 | no target: stops the handle's timer silently; target ahead: one update whose text is the numeral of the remaining seconds (no leading zero, reads back as that count), state unchanged; target reached: one `Finished`, stops the handle's timer and running, keeps a nil handle nil, changes nothing else |
| TimerViewModel.UpdateTextIsNeverSpecial | Lifetimer/TimerViewModel.swift:75-77 | a countdown update is never the empty text or `"---"` |
| Lifecycle.InitEstablishesInv | Lifetimer/TimerViewModel.swift:16-19 | the launch state satisfies the invariant (in-memory target equals the slot; armed implies running; running implies a stored date) |
| Lifecycle.StartTimerPreservesInv | Lifetimer/TimerViewModel.swift:22-35 | starting keeps the invariant, including when the second calendar step fails |
| Lifecycle.ResetTimerPreservesInv | Lifetimer/TimerViewModel.swift:38-47 | reset leads to a state satisfying the invariant from any state |
| Lifecycle.TickPreservesInv | Lifetimer/TimerViewModel.swift:66-83 | a tick keeps the invariant |
| Lifecycle.Step | Lifetimer/TimerViewModel.swift:22-83 | as direct calls: a start with any duration is `startTimer`, a reset is `resetTimer`, a firing is a tick when a timer is live and nothing otherwise |
| Lifecycle.UIStep | Lifetimer/ContentView.swift:9-44 | through the popover: a start runs only while not running, a reset only while running, and any other press changes nothing |
| Lifecycle.UIStepPreservesUIInv | Lifetimer/ContentView.swift:9-44 | a press or a firing through the app keeps the invariant, leaves no orphaned timer and never leaves it running without a target |
| Lifecycle.UIRunKeepsOneTimer | Lifetimer/TimerViewModel.swift:59-63 | through the app's buttons no timer is ever orphaned, so at most one is live |
| Lifecycle.LaunchThenUIRunKeepsOneTimer | Lifetimer/ContentView.swift:9-44 | every state the app reaches from a launch has no orphaned timer, at most one live timer, and a target whenever it is running |
| Lifecycle.RunPreservesInv | Lifetimer/TimerViewModel.swift:22-83 | the invariant holds after any sequence of starts, resets and timer firings |
| Lifecycle.LaunchThenRunKeepsInv | Lifetimer/TimerViewModel.swift:16-83 | every state reachable from a launch satisfies the invariant |
| Lifecycle.RunOnlyAppendsEvents | Lifetimer/TimerViewModel.swift:45-79 | callbacks are only ever appended, never retracted |
| Lifecycle.ResetIdempotent | Lifetimer/TimerViewModel.swift:38-47 | a second reset changes no state and emits one more empty update |
| Lifecycle.FinishKeepsSlot | Lifetimer/TimerViewModel.swift:78-82 | after the finishing tick the model is not running but the slot still holds the target |
| Lifecycle.RelaunchAfterFinishRefinishes | Lifetimer/TimerViewModel.swift:50-56 | a relaunch after a finish runs again toward the past target and its first tick emits only `Finished` |
| Lifecycle.DoubleStartOrphansTimer | Lifetimer/TimerViewModel.swift:59-63 | two successful direct starts leave two live timers, and a reset leaves one |
| Lifecycle.SecondStepFailureStrandsRunning | Lifetimer/TimerViewModel.swift:27-29 | for any running model and any calendar whose second step fails, a direct start leaves "running" with a timer, no target and the same slot; the next tick stops the timer silently and the flag stays set |
| Lifecycle.StartZeroFinishesOnFirstTick | Lifetimer/TimerViewModel.swift:22-33 | for any calendar that adds nothing for zero, a zero-year start targets and stores now, so the first tick emits `Finished` |

## Left out

- The defaults database is only a map of keys. Durability, synchronisation and the process boundary are not modelled.
- The calendar's month, leap-year and time-zone arithmetic is not modelled. Both calendar steps are abstract parameters that may fail.
- Dates are whole seconds. `Double` dates and the `Double` rounding in the fractional-year step are not modelled: the duration is an exact `real`. `%.0f` rounds the remainder to the nearest second: 0.3 s shows "0" and 0.7 s shows "1". In the model remainders are whole seconds, so this rounding never applies.
- The duration is a finite `real`. The text field can also pass infinite and NaN values, and `Int(_:)` traps on those and on values out of the 64-bit range. Those runtime traps are not modelled.
- Lifecycle.Step: accepts start and reset in every state, which is more than the popover offers. `Lifecycle.UIStep` models the buttons as the app shows them. The orphaned timer and the stranded "running" state need direct calls.
- Timer scheduling and the run loop are not modelled. A timer firing is an explicit step that may happen at any "now" while some timer is live. The one-second period is not modelled.
- The callbacks are assigned by the app delegate only after construction, so they are nil during `init`. The model logs every invocation as if a callback were set. `init` itself never invokes one.
- Apart from which button the popover offers (ContentView.swift:9, modelled by `Lifecycle.UIStep`), the user interface is not modelled. This covers the status item, showing and hiding the popover, the text field, the main-queue hops, the window chrome and the app entry point. `isTimerRunning` is kept as a field, but its publication to observers is not modelled.

=== FILE: decimal.dfy ===
/**
 * Rendering of a whole number of remaining seconds as display text: a plain
 * decimal numeral with no sign, no leading zeros, no units and no separators.
 * `Value` reads such a numeral back and is the partner that pins down what
 * `Format` produces.
 */
module Decimal {

  predicate IsDigit(c: char) {
    '0' <= c <= '9'
  }

  /** A non-empty string made only of decimal digits. */
  predicate IsNumeral(s: string) {
    |s| > 0 && forall i :: 0 <= i < |s| ==> IsDigit(s[i])
  }

  function DigitChar(d: nat): (c: char)
    requires d < 10
    ensures IsDigit(c)
    ensures c as int - '0' as int == d
  {
    ('0' as int + d) as char
  }

  /** The inverse of `DigitChar`. */
  function DigitValue(c: char): (d: nat)
    requires IsDigit(c)
    ensures d < 10
    ensures DigitChar(d) == c
  {
    c as int - '0' as int
  }

  /** The number a string of digits denotes, most significant digit first. */
  function Value(s: string): nat
    requires forall i :: 0 <= i < |s| ==> IsDigit(s[i])
    decreases |s|
  {
    if |s| == 0 then 0
    else Value(s[..|s| - 1]) * 10 + DigitValue(s[|s| - 1])
  }

  /** The decimal numeral of `n`. */
  function Format(n: nat): (s: string)
    ensures IsNumeral(s)
    ensures n > 0 ==> s[0] != '0'
    decreases n
  {
    if n < 10 then [DigitChar(n)]
    else Format(n / 10) + [DigitChar(n % 10)]
  }

  /** Reading the numeral back gives the number: the text carries exactly the
      remaining seconds. */
  lemma {:induction false} ValueOfFormat(n: nat)
    ensures Value(Format(n)) == n
    decreases n
  {
    if n >= 10 {
      var prefix := Format(n / 10);
      var s := prefix + [DigitChar(n % 10)];
      assert s[..|s| - 1] == prefix;
      ValueOfFormat(n / 10);
    }
  }

  /** Distinct second counts never render to the same text. */
  lemma FormatInjective(m: nat, n: nat)
    requires Format(m) == Format(n)
    ensures m == n
  {
    ValueOfFormat(m);
    ValueOfFormat(n);
  }
}

=== FILE: lifecycle.dfy ===
/**
 * Properties of the countdown lifecycle as a whole: the invariant every
 * transition keeps, runs of user actions and timer firings, and the
 * behaviours that follow from finishing without clearing the slot and from
 * scheduling a timer without stopping the previous one.
 */
module Lifecycle {
  import opened Wrappers
  import opened Time
  import opened Persistence
  import opened YearSplit
  import opened TimerViewModel

  /** What holds in every reachable state:
      - an in-memory target is always the persisted one;
      - a timer the handle refers to is only scheduled while running;
      - while running, the slot holds a date.
      The converse of the last line does not hold: see `FinishKeepsSlot`. */
  predicate Inv(m: Model) {
    && (m.targetDate.Some? ==> Slot(m) == m.targetDate)
    && (m.timer == Scheduled ==> m.isTimerRunning)
    && (m.isTimerRunning ==> Slot(m).Some?)
  }

  lemma InitEstablishesInv(defaults: Defaults)
    ensures Inv(Init(defaults))
  {
  }

  lemma StartTimerPreservesInv(m: Model, cal: Calendar, now: Date, years: real)
    requires Inv(m)
    ensures Inv(StartTimer(m, cal, now, years))
  {
  }

  lemma ResetTimerPreservesInv(m: Model)
    ensures Inv(ResetTimer(m))
  {
  }

  lemma TickPreservesInv(m: Model, now: Date)
    requires Inv(m)
    ensures Inv(Tick(m, now))
  {
  }

  /** The things that happen to the view model: the user starts a countdown
      of `years` at `now`, the user resets, or a live timer fires at `now`. */
  datatype Action = UserStart(now: Date, years: real) | UserReset | TimerFires(now: Date)

  /** One action, as a direct call on the view model: start and reset are
      accepted in every state, with any duration. A timer can only fire
      while one is live; a firing without a live timer cannot happen and
      leaves the model as it is. */
  function Step(m: Model, cal: Calendar, a: Action): (m': Model)
    ensures a.UserStart? ==> m' == StartTimer(m, cal, a.now, a.years)
    ensures a.UserReset? ==> m' == ResetTimer(m)
    ensures a.TimerFires? && LiveTimers(m) > 0 ==> m' == Tick(m, a.now)
    ensures a.TimerFires? && LiveTimers(m) == 0 ==> m' == m
  {
    match a
    case UserStart(now, years) => StartTimer(m, cal, now, years)
    case UserReset => ResetTimer(m)
    case TimerFires(now) => if LiveTimers(m) > 0 then Tick(m, now) else m
  }

  function Run(m: Model, cal: Calendar, actions: seq<Action>): Model
    decreases |actions|
  {
    if |actions| == 0 then m else Run(Step(m, cal, actions[0]), cal, actions[1..])
  }

  /** The invariant holds after any sequence of actions from launch. */
  lemma {:induction false} RunPreservesInv(m: Model, cal: Calendar, actions: seq<Action>)
    requires Inv(m)
    ensures Inv(Run(m, cal, actions))
    decreases |actions|
  {
    if |actions| > 0 {
      var a := actions[0];
      match a {
        case UserStart(now, years) =>
          StartTimerPreservesInv(m, cal, now, years);
        case UserReset =>
          ResetTimerPreservesInv(m);
        case TimerFires(now) =>
          if LiveTimers(m) > 0 { TickPreservesInv(m, now); }
      }
      RunPreservesInv(Step(m, cal, a), cal, actions[1..]);
    }
  }

  /** Every state reachable from a launch satisfies the invariant. */
  lemma LaunchThenRunKeepsInv(defaults: Defaults, cal: Calendar, actions: seq<Action>)
    ensures Inv(Run(Init(defaults), cal, actions))
  {
    InitEstablishesInv(defaults);
    RunPreservesInv(Init(defaults), cal, actions);
  }

  /** Callbacks are never retracted: a run only appends to the event log. */
  lemma {:induction false} RunOnlyAppendsEvents(m: Model, cal: Calendar, actions: seq<Action>)
    ensures |m.events| <= |Run(m, cal, actions).events|
    ensures Run(m, cal, actions).events[..|m.events|] == m.events
    decreases |actions|
  {
    if |actions| > 0 {
      var m1 := Step(m, cal, actions[0]);
      assert |m.events| <= |m1.events| && m1.events[..|m.events|] == m.events;
      RunOnlyAppendsEvents(m1, cal, actions[1..]);
    }
  }

  /** Reset is idempotent: a second reset changes no state and only emits a
      second empty update. */
  lemma ResetIdempotent(m: Model)
    ensures ResetTimer(ResetTimer(m)).(events := []) == ResetTimer(m).(events := [])
    ensures ResetTimer(ResetTimer(m)).events == m.events + [Update(""), Update("")]
  {
  }

  /** Finishing keeps the slot: after the finishing tick the model is no
      longer running, yet the slot still holds the (past) target. */
  lemma FinishKeepsSlot(m: Model, now: Date)
    requires Inv(m)
    requires m.targetDate.Some? && m.targetDate.value <= now
    ensures !Tick(m, now).isTimerRunning
    ensures Slot(Tick(m, now)) == m.targetDate
  {
  }

  /** Consequently a relaunch after a finished countdown runs again toward
      the past target, and its first tick finishes again. */
  lemma RelaunchAfterFinishRefinishes(m: Model, now: Date, later: Date)
    requires Inv(m)
    requires m.targetDate.Some? && m.targetDate.value <= now <= later
    ensures Init(Tick(m, now).defaults).isTimerRunning
    ensures Init(Tick(m, now).defaults).targetDate == m.targetDate
    ensures Tick(Init(Tick(m, now).defaults), later).events == [Finished]
  {
  }

  /** Starting while a timer is scheduled orphans it: after two successful
      direct starts two timers fire every second, and a reset stops only one.
      Through the app's buttons this cannot happen: see `UIRunKeepsOneTimer`. */
  lemma DoubleStartOrphansTimer(m: Model, cal: Calendar, now1: Date, years1: real, now2: Date, years2: real)
    requires LiveTimers(m) == 0
    requires TargetDate(cal, now1, years1).Some?
    requires TargetDate(cal, now2, years2).Some?
    ensures LiveTimers(StartTimer(StartTimer(m, cal, now1, years1), cal, now2, years2)) == 2
    ensures LiveTimers(ResetTimer(StartTimer(StartTimer(m, cal, now1, years1), cal, now2, years2))) == 1
  {
  }

  /** A failure in the second calendar step during a direct start on a
      running countdown leaves the model running with a scheduled timer but
      no target; the next tick then stops that timer, emits nothing, and the
      model stays "running" with nothing counting down. */
  lemma SecondStepFailureStrandsRunning(m: Model, cal: Calendar, now: Date, years: real, later: Date)
    requires Inv(m) && m.isTimerRunning && m.timer == Scheduled
    requires cal.addYears(now, WholeYears(years)).Some?
    requires TargetDate(cal, now, years).None?
    ensures var started := StartTimer(m, cal, now, years);
            && started.isTimerRunning && started.timer == Scheduled
            && started.targetDate.None? && Slot(started) == Slot(m)
            && started.events == m.events
    ensures var ticked := Tick(StartTimer(m, cal, now, years), later);
            && ticked.isTimerRunning && ticked.timer == Invalidated
            && ticked.targetDate.None? && ticked.events == m.events
  {
  }

  /** Starting with zero years targets `now` itself whenever the calendar
      adds nothing for zero, so the first tick finishes at once. */
  lemma StartZeroFinishesOnFirstTick(m: Model, cal: Calendar, now: Date, later: Date)
    requires cal.addYears(now, 0) == Some(now) && cal.addSeconds(now, 0) == Some(now)
    requires now <= later
    ensures StartTimer(m, cal, now, 0.0).targetDate == Some(now)
    ensures Slot(StartTimer(m, cal, now, 0.0)) == Some(now)
    ensures Tick(StartTimer(m, cal, now, 0.0), later).events == m.events + [Finished]
  {
  }

  /** One action through the app's popover: the Start button is offered
      only while the countdown is not running, the Reset button only while
      it is; any other press is not possible and leaves the model as it is.
      Timer firings are as in `Step`. */
  function UIStep(m: Model, cal: Calendar, a: Action): (m': Model)
    ensures a.UserStart? && !m.isTimerRunning ==> m' == StartTimer(m, cal, a.now, a.years)
    ensures a.UserReset? && m.isTimerRunning ==> m' == ResetTimer(m)
    ensures (a.UserStart? && m.isTimerRunning) || (a.UserReset? && !m.isTimerRunning) ==> m' == m
    ensures a.TimerFires? ==> m' == Step(m, cal, a)
  {
    match a
    case UserStart(_, _) => if m.isTimerRunning then m else Step(m, cal, a)
    case UserReset => if m.isTimerRunning then Step(m, cal, a) else m
    case TimerFires(_) => Step(m, cal, a)
  }

  function UIRun(m: Model, cal: Calendar, actions: seq<Action>): Model
    decreases |actions|
  {
    if |actions| == 0 then m else UIRun(UIStep(m, cal, actions[0]), cal, actions[1..])
  }

  /** The invariant of states reached through the app: `Inv`, no orphaned
      timer, and never running without a target. */
  predicate UIInv(m: Model) {
    && Inv(m)
    && m.orphanTimers == 0
    && (m.isTimerRunning ==> m.targetDate.Some?)
  }

  /** Through the buttons, start only runs while no timer is scheduled, so
      setting up a timer never orphans one. */
  lemma UIStepPreservesUIInv(m: Model, cal: Calendar, a: Action)
    requires UIInv(m)
    ensures UIInv(UIStep(m, cal, a))
  {
  }

  /** Through the app's buttons at most one timer is ever live. */
  lemma {:induction false} UIRunKeepsOneTimer(m: Model, cal: Calendar, actions: seq<Action>)
    requires UIInv(m)
    ensures UIInv(UIRun(m, cal, actions))
    ensures LiveTimers(UIRun(m, cal, actions)) <= 1
    decreases |actions|
  {
    if |actions| > 0 {
      UIStepPreservesUIInv(m, cal, actions[0]);
      UIRunKeepsOneTimer(UIStep(m, cal, actions[0]), cal, actions[1..]);
    }
  }

  /** Every state the app reaches from a launch has no orphaned timer, at
      most one live timer, and a target whenever it is running. */
  lemma LaunchThenUIRunKeepsOneTimer(defaults: Defaults, cal: Calendar, actions: seq<Action>)
    ensures UIRun(Init(defaults), cal, actions).orphanTimers == 0
    ensures UIRun(Init(defaults), cal, actions).isTimerRunning ==> UIRun(Init(defaults), cal, actions).targetDate.Some?
    ensures LiveTimers(UIRun(Init(defaults), cal, actions)) <= 1
  {
    InitEstablishesInv(defaults);
    UIRunKeepsOneTimer(Init(defaults), cal, actions);
  }
}

=== FILE: persistence.dfy ===
/**
 * The persistence service: one absolute target date kept in the user's
 * defaults database under a fixed key.
 *
 * The defaults database is a map from keys to stored objects. A stored
 * object is either a date or some other kind of value; reading the slot
 * performs the `as? Date` downcast, so a non-date object under the key reads
 * as absent. Dates are whole seconds on a fixed time line.
 */
module Persistence {
  import opened Wrappers
  import opened Time

  /** What the defaults database can hold under a key. */
  datatype Object = DateObject(date: Date) | OtherObject

  /** The user's defaults database. */
  type Defaults = map<string, Object>

  /** The one key all three operations address. */
  const TargetDateKey: string := "CountdownTargetDate"

  /** Stores `targetDate` under the key, replacing whatever was there. */
  function Save(defaults: Defaults, targetDate: Date): (d: Defaults)
    ensures TargetDateKey in d && d[TargetDateKey] == DateObject(targetDate)
    ensures d - {TargetDateKey} == defaults - {TargetDateKey}
  {
    defaults[TargetDateKey := DateObject(targetDate)]
  }

  /** Reads the slot: the stored date, or `None` when the key is missing or
      holds something that is not a date. */
  function LoadTargetDate(defaults: Defaults): (r: Option<Date>)
    ensures r.Some? <==> TargetDateKey in defaults && defaults[TargetDateKey].DateObject?
    ensures r.Some? ==> defaults[TargetDateKey] == DateObject(r.value)
  {
    if TargetDateKey in defaults && defaults[TargetDateKey].DateObject?
    then Some(defaults[TargetDateKey].date)
    else None
  }

  /** Removes the key from the defaults database. */
  function ClearTargetDate(defaults: Defaults): (d: Defaults)
    ensures TargetDateKey !in d
    ensures d - {TargetDateKey} == defaults - {TargetDateKey}
  {
    defaults - {TargetDateKey}
  }

  /** A load right after a save returns exactly the saved date. */
  lemma LoadAfterSave(defaults: Defaults, targetDate: Date)
    ensures LoadTargetDate(Save(defaults, targetDate)) == Some(targetDate)
  {
  }

  /** A second save overwrites the first: the slot keeps no trace of it. */
  lemma SaveOverwrites(defaults: Defaults, first: Date, second: Date)
    ensures Save(Save(defaults, first), second) == Save(defaults, second)
  {
  }

  /** After a clear, a load reports the slot absent. */
  lemma LoadAfterClear(defaults: Defaults)
    ensures LoadTargetDate(ClearTargetDate(defaults)) == None
  {
  }

  /** Clearing twice is the same as clearing once. */
  lemma ClearIdempotent(defaults: Defaults)
    ensures ClearTargetDate(ClearTargetDate(defaults)) == ClearTargetDate(defaults)
  {
  }

  /** Clearing a database that has no entry under the key changes nothing. */
  lemma ClearAbsentIsHarmless(defaults: Defaults)
    requires TargetDateKey !in defaults
    ensures ClearTargetDate(defaults) == defaults
  {
  }

  /** The load looks at the one key and nothing else: two databases that
      agree on the key read the same, whatever else they hold. */
  lemma LoadReadsOnlyTheKey(d1: Defaults, d2: Defaults)
    requires TargetDateKey in d1 <==> TargetDateKey in d2
    requires TargetDateKey in d1 ==> d1[TargetDateKey] == d2[TargetDateKey]
    ensures LoadTargetDate(d1) == LoadTargetDate(d2)
  {
  }
}

=== FILE: time.dfy ===
/** The time line every part of the model shares. */
module Time {

  /** An absolute point in time, in whole seconds. */
  type Date = int
}

=== FILE: timer_view_model.dfy ===
/**
 * The countdown view model: an in-memory target date, the running flag, the
 * `timer` handle with the repeating one-second timers it schedules, and the
 * persisted slot it mirrors. Every operation is a pure transition; the
 * callbacks it invokes are appended to an event log, and "now" is a
 * parameter.
 *
 * Timers: a scheduled repeating timer keeps firing until it is invalidated,
 * whether or not the `timer` handle still refers to it. The handle is nil,
 * refers to a scheduled timer, or refers to one already invalidated;
 * `orphanTimers` counts scheduled timers the handle no longer refers to.
 */
module TimerViewModel {
  import opened Wrappers
  import opened Time
  import opened Persistence
  import Decimal
  import opened YearSplit

  /** A callback invocation: `onTimeUpdate(text)` or `onTimerFinished()`. */
  datatype Event = Update(text: string) | Finished

  /** What the `timer` handle refers to. */
  datatype TimerRef = NoTimer | Scheduled | Invalidated

  datatype Model = Model(
    targetDate: Option<Date>,
    defaults: Defaults,
    isTimerRunning: bool,
    timer: TimerRef,
    orphanTimers: nat,
    events: seq<Event>)

  /** The number of scheduled timers that still fire every second. */
  function LiveTimers(m: Model): nat {
    m.orphanTimers + (if m.timer == Scheduled then 1 else 0)
  }

  /** The persisted slot as the persistence service reads it. */
  function Slot(m: Model): Option<Date> {
    LoadTargetDate(m.defaults)
  }

  /** `setupTimer`: schedules a new repeating timer and points the handle at
      it. A timer the handle referred to is NOT invalidated first, so it
      keeps firing as an orphan. */
  function SetupTimer(m: Model): (m': Model)
    ensures m'.timer == Scheduled
    ensures LiveTimers(m') == LiveTimers(m) + 1
    ensures m'.orphanTimers >= m.orphanTimers
    ensures m' == m.(timer := Scheduled, orphanTimers := m'.orphanTimers)
  {
    m.(timer := Scheduled,
       orphanTimers := m.orphanTimers + (if m.timer == Scheduled then 1 else 0))
  }

  /** `timer?.invalidate()`: stops the timer the handle refers to, if any;
      the handle itself is kept. Orphans are out of its reach. */
  function InvalidateTimer(m: Model): (m': Model)
    ensures m'.timer != Scheduled
    ensures m'.timer == NoTimer <==> m.timer == NoTimer
    ensures LiveTimers(m') == m.orphanTimers
    ensures m' == m.(timer := m'.timer)
  {
    if m.timer == NoTimer then m else m.(timer := Invalidated)
  }

  /** The freshly constructed view model, before `init` loads the slot. */
  function Fresh(defaults: Defaults): Model {
    Model(None, defaults, false, NoTimer, 0, [])
  }

  /** The private `loadTargetDate`: restores a persisted target, if there is
      one, and arms a timer. It emits nothing. */
  function LoadTargetDateStep(m: Model): (m': Model)
    ensures Slot(m).None? ==> m' == m
    ensures Slot(m).Some? ==>
      && m'.targetDate == Slot(m)
      && m'.isTimerRunning
      && m'.timer == Scheduled
      && LiveTimers(m') == LiveTimers(m) + 1
    ensures m'.defaults == m.defaults && m'.events == m.events
  {
    match LoadTargetDate(m.defaults)
    case None => m
    case Some(savedDate) =>
      SetupTimer(m.(targetDate := Some(savedDate), isTimerRunning := true))
  }

  /** `init`: construct, then restore from the slot. With a stored date the
      model is running toward it with exactly one timer and has emitted
      nothing; with an empty slot it is idle and has emitted nothing. */
  function Init(defaults: Defaults): (m: Model)
    ensures m.defaults == defaults
    ensures m.events == []
    ensures LoadTargetDate(defaults).Some? ==>
      && m.targetDate == LoadTargetDate(defaults)
      && m.isTimerRunning
      && m.timer == Scheduled
      && LiveTimers(m) == 1
    ensures LoadTargetDate(defaults).None? ==>
      && m.targetDate.None?
      && !m.isTimerRunning
      && m.timer == NoTimer
      && LiveTimers(m) == 0
  {
    LoadTargetDateStep(Fresh(defaults))
  }

  /** `startTimer(years:)` at time `now`.
      - If the year step fails, nothing changes.
      - If only the second step fails, the in-memory target becomes nil;
        slot, running flag and timers are left as they were.
      - Otherwise the same target is held in memory and in the slot, the
        model runs, and one more timer is live (any earlier one is
        orphaned, not stopped).
      No callback is invoked. */
  function StartTimer(m: Model, cal: Calendar, now: Date, years: real): (m': Model)
    ensures m'.events == m.events
    ensures cal.addYears(now, WholeYears(years)).None? ==> m' == m
    ensures cal.addYears(now, WholeYears(years)).Some? && TargetDate(cal, now, years).None? ==>
      m' == m.(targetDate := None)
    ensures TargetDate(cal, now, years).Some? ==>
      && m'.targetDate == TargetDate(cal, now, years)
      && Slot(m') == m'.targetDate
      && m'.defaults - {TargetDateKey} == m.defaults - {TargetDateKey}
      && m'.isTimerRunning
      && m'.timer == Scheduled
      && LiveTimers(m') == LiveTimers(m) + 1
  {
    match cal.addYears(now, WholeYears(years))
    case None => m
    case Some(date) =>
      var target := cal.addSeconds(date, FractionalSeconds(years));
      match target
      case None => m.(targetDate := None)
      case Some(t) =>
        SetupTimer(m.(targetDate := target, defaults := Save(m.defaults, t), isTimerRunning := true))
  }

  /** `resetTimer`: stops the timer the handle refers to, drops the handle,
      the target and the slot, stops running and emits one empty update.
      Orphaned timers are unaffected. */
  function ResetTimer(m: Model): (m': Model)
    ensures m'.timer == NoTimer
    ensures m'.targetDate.None?
    ensures Slot(m').None? && TargetDateKey !in m'.defaults
    ensures m'.defaults - {TargetDateKey} == m.defaults - {TargetDateKey}
    ensures !m'.isTimerRunning
    ensures LiveTimers(m') == m.orphanTimers
    ensures m'.events == m.events + [Update("")]
  {
    var stopped := InvalidateTimer(m);
    stopped.(timer := NoTimer,
             targetDate := None,
             defaults := ClearTargetDate(m.defaults),
             isTimerRunning := false,
             events := m.events + [Update("")])
  }

  /** `updateCountdown` at time `now`, run when a live timer fires.
      - No target: the handle's timer is invalidated, nothing is emitted.
      - Target still ahead: one update whose text is the decimal numeral of
        the whole seconds remaining; no state changes.
      - Target reached or passed: one finish event, the handle's timer is
        invalidated and running stops; the in-memory target and the slot
        are kept. */
  function Tick(m: Model, now: Date): (m': Model)
    ensures m'.defaults == m.defaults
    ensures m'.targetDate == m.targetDate
    ensures m.targetDate.None? ==>
      && m'.events == m.events
      && m'.timer != Scheduled
      && (m'.timer == NoTimer <==> m.timer == NoTimer)
      && m' == m.(timer := m'.timer)
    ensures m.targetDate.Some? && m.targetDate.value > now ==>
      && |m'.events| == |m.events| + 1
      && m'.events[..|m.events|] == m.events
      && m'.events[|m.events|] == Update(Decimal.Format(m.targetDate.value - now))
      && Decimal.Value(m'.events[|m.events|].text) == m.targetDate.value - now
      && m' == m.(events := m'.events)
    ensures m.targetDate.Some? && m.targetDate.value <= now ==>
      && m'.events == m.events + [Finished]
      && !m'.isTimerRunning
      && m'.timer != Scheduled
      && (m'.timer == NoTimer <==> m.timer == NoTimer)
      && LiveTimers(m') == m.orphanTimers
      && m' == m.(events := m'.events, isTimerRunning := false, timer := m'.timer)
  {
    match m.targetDate
    case None => InvalidateTimer(m)
    case Some(target) =>
      var remainingSeconds := target - now;
      if remainingSeconds > 0 then
        Decimal.ValueOfFormat(remainingSeconds);
        m.(events := m.events + [Update(Decimal.Format(remainingSeconds))])
      else
        InvalidateTimer(m.(events := m.events + [Finished])).(isTimerRunning := false)
  }

  /** A running update is never mistaken for the display's two special
      texts: the empty "no countdown" text or the "---" shown on finish. */
  lemma UpdateTextIsNeverSpecial(m: Model, now: Date)
    requires m.targetDate.Some? && m.targetDate.value > now
    ensures Tick(m, now).events[|m.events|] != Update("")
    ensures Tick(m, now).events[|m.events|] != Update("---")
  {
  }
}

=== FILE: wrappers.dfy ===
/** The optional-value datatype used for Swift's `T?` throughout the model. */
module Wrappers {

  /** `None` stands for Swift's `nil`; `Some(v)` for a present value. */
  datatype Option<+T> = None | Some(value: T)
}

=== FILE: year_split.dfy ===
/**
 * How a duration in (possibly fractional, possibly negative) years becomes an
 * absolute target: the whole years go through the calendar's "add N years",
 * the fraction is converted to seconds with a fixed average year of 365.25
 * days and goes through the calendar's "add N seconds". Both calendar steps
 * may fail. Conversions to a whole number truncate toward zero, as Swift's
 * `Int(_:)` does.
 */
module YearSplit {
  import opened Wrappers
  import opened Time

  /** The two calendar operations the start step calls. They are left
      abstract: month lengths, leap years and time zones are the calendar's
      business, and either call may return `None`. */
  datatype Calendar = Calendar(
    addYears: (Date, int) -> Option<Date>,
    addSeconds: (Date, int) -> Option<Date>)

  /** Seconds in an average year of 365.25 days. */
  const SecondsPerYear: real := 365.25 * 24.0 * 60.0 * 60.0

  /** `Int(x)`: the whole number nearest to `x` on the side of zero. */
  function Truncate(x: real): (n: int)
    ensures 0.0 <= x ==> 0 <= n && n as real <= x < n as real + 1.0
    ensures x < 0.0 ==> n <= 0 && n as real - 1.0 < x <= n as real
  {
    if x >= 0.0 then x.Floor else -((-x).Floor)
  }

  /** `Int(years)`: the whole years of the duration. */
  function WholeYears(years: real): (n: int)
    ensures 0.0 <= years ==> 0 <= n && n as real <= years < n as real + 1.0
    ensures years < 0.0 ==> n <= 0 && n as real - 1.0 < years <= n as real
  {
    Truncate(years)
  }

  /** The fraction of the duration times 31,557,600 seconds, truncated
      toward zero. It has the sign of `years` and lies strictly within one average year. */
  function FractionalSeconds(years: real): (s: int)
    ensures -31557600 < s < 31557600
    ensures 0.0 <= years ==>
      0 <= s && s as real <= (years - WholeYears(years) as real) * SecondsPerYear < s as real + 1.0
    ensures years < 0.0 ==>
      s <= 0 && s as real - 1.0 < (years - WholeYears(years) as real) * SecondsPerYear <= s as real
  {
    Truncate((years - WholeYears(years) as real) * SecondsPerYear)
  }

  /** A whole number of years adds no fractional seconds. */
  lemma WholeYearsAddNoSeconds(n: int)
    ensures WholeYears(n as real) == n
    ensures FractionalSeconds(n as real) == 0
  {
  }

  /** Half a year is 0 whole years and 15,778,800 seconds. */
  lemma HalfYear()
    ensures WholeYears(0.5) == 0
    ensures FractionalSeconds(0.5) == 15778800
  {
  }

  /** Minus half a year is 0 whole years and 15,778,800 seconds backwards. */
  lemma NegativeHalfYear()
    ensures WholeYears(-0.5) == 0
    ensures FractionalSeconds(-0.5) == -15778800
  {
  }

  /** A calendar never moves a date forward for a zero or negative count. */
  ghost predicate NeverForwardForNonPositive(cal: Calendar) {
    && (forall d: Date, k: int :: k <= 0 && cal.addYears(d, k).Some? ==> cal.addYears(d, k).value <= d)
    && (forall d: Date, k: int :: k <= 0 && cal.addSeconds(d, k).Some? ==> cal.addSeconds(d, k).value <= d)
  }

  /** With such a calendar a negative duration targets a date at or before
      `now`: both truncated counts are zero or negative. */
  lemma NegativeDurationNotAhead(cal: Calendar, now: Date, years: real)
    requires years < 0.0
    requires NeverForwardForNonPositive(cal)
    ensures TargetDate(cal, now, years).Some? ==> TargetDate(cal, now, years).value <= now
  {
  }

  /** The absolute target for `years` from `now`, or `None` when either
      calendar step fails. */
  function TargetDate(cal: Calendar, now: Date, years: real): (t: Option<Date>)
    ensures cal.addYears(now, WholeYears(years)).None? ==> t.None?
    ensures cal.addYears(now, WholeYears(years)).Some? ==>
      t == cal.addSeconds(cal.addYears(now, WholeYears(years)).value, FractionalSeconds(years))
  {
    match cal.addYears(now, WholeYears(years))
    case None => None
    case Some(date) => cal.addSeconds(date, FractionalSeconds(years))
  }
}
